=== FILE: README.md ===
# Hotel booking handlers: a Dafny model

This project models the decision rules of a hotel-booking backend written as two Flask
applications over PostgreSQL:

- `app.py` issues its own SQL. The model covers seven handlers:
  - listing the rooms free for a stay;
  - reading and cancelling a reservation, scoped to its owner unless the caller is an admin;
  - paying for a reservation;
  - creating a reservation, with a best-effort audit entry;
  - uploading and reading a room image.
- `api/app.py` validates each request and hands it to a stored database function through
  the `call_db_function` helper. It then relays the row or error dict that comes back.

The database is an immutable record `Store.Db`. It holds:

- users, mapped to their type;
- rooms, mapped to their status and optional image;
- a sequence of reservations, whose status may be SQL NULL;
- a sequence of payments;
- the audit trail.

Each handler is a pure function. It takes the database, the caller, the request and the
replies of anything it cannot see. It returns the HTTP status, the database after the
handler's own writes, and the stored procedure it called, if any. These things are
parameters:

- how a stored procedure ends;
- whether the database accepts an insert;
- whether the audit write succeeds;
- what `strptime` or the `::date` cast makes of a date text.

Request fields are JSON values (`Values.Value`). Checks follow Python's rules:

- `if not x` uses Python truthiness;
- `dict.get` returns None for a missing key;
- `key in data` tests key presence only;
- `int()` and `float()` conversions are modelled with their exceptions.

A bound id compared with an integer column (`WHERE id = %s`) follows PostgreSQL's reading.
An int is used as is. A text is read as an integer literal, which must lie in the range
of PostgreSQL's `integer` type. Any other value except None makes the statement fail. An exception Python does not catch becomes Flask's 500.

Files: `values.dfy` (module `Values`), `store.dfy` (`Store`), `availability.dfy`
(`Availability`), `access.dfy` (`Access`), `payments.dfy` (`Payments`), `booking.dfy`
(`Booking`), `images.dfy` (`Images`) model `app.py`; `api.dfy` (`Api`) models `api/app.py`.

## Model

| member | source | states |
|---|---|---|
| Values.PyInt | api/app.py:139-147 | Python's `int()` on a request value raises TypeError exactly for None, lists and objects; on text it succeeds exactly for an integer literal of at most 4300 digits; an int converts to itself |
| Values.FloatError | api/app.py:183-192 | `float()` raises TypeError exactly for None, lists and objects, OverflowError exactly for an int at or beyond 2^1024 - 2^970 in magnitude (where rounding to a double reaches infinity), ValueError exactly for text that is not a decimal literal, and never raises for floats or booleans |
| Values.SqlInt | app.py:243-246 | a bound id is usable in `WHERE id = %s` when it is an int (that int) or a text holding an integer literal within PostgreSQL's `integer` range -2^31..2^31-1 (that value); out-of-range text and any other value except None make the statement fail |
| Values.ShowNatRoundTrip | api/app.py:258-261 | reading back the decimal digits that `str(n)` prints gives `n` again, so the literal reader used for `int(quarto_id)` inverts Python's rendering of naturals |
| Values.ShowIntRoundTrip | api/app.py:258-261 | every integer's rendering, sign included, is an integer literal that reads back as that integer |
| Values.FirstFailureIsEarliest | api/app.py:249-272 | in an ordered validation chain the answer is the status of the earliest failing check, and there is no answer exactly when every check passes |
| Availability.ListAvailable | app.py:541-575 | a missing or empty date is a 400; a date the database cannot cast is a 500; otherwise 200; only on 200 are rooms listed, and only existing ones |
| Availability.BlocksIffSharesNight | app.py:556-562 | for non-empty stays the sub-query's strict `checkin < requested checkout` and `checkout > requested checkin` test holds exactly when a live reservation on the room holds one of the requested nights (half-open intervals) |
| Availability.ListedIffNoSharedNight | app.py:552-563 | for a well-formed request, a room is listed if and only if its status is 'livre' and no live reservation on it holds any requested night |
| Availability.BackToBackNeverBlocks | app.py:559-560 | a reservation that checks out on the requested check-in day, or checks in on the requested check-out day, never blocks the room |
| Availability.CancelledNeverBlocks | app.py:556-562 | adding a reservation whose status is 'cancelado' or NULL changes no listing answer, for any request |
| Availability.InvertedRangeBlocksIffSpans | app.py:545-562 | the handler only tests that both dates are present; for a check-out on or before check-in, a reservation blocks exactly when it is live, on the room, and holds both the night before check-out and the check-in night |
| Availability.DegenerateStayHidesRoom | app.py:552-563 | a live stored stay whose check-out is on or before its check-in holds no night; yet a request starting before its check-out and ending after its check-in does not list its 'livre' room, although no live reservation on the room holds a requested night |
| Availability.InvertedRangeListing | app.py:545-563 | for an empty or inverted range a room is listed exactly when it is 'livre' and no live reservation on it spans from the night before check-out to the check-in night, so not every free room is listed although no night is requested |
| Availability.LiveOverlapBlocks | app.py:556-561 | a reservation with any non-NULL status other than 'cancelado' ('pago' included) that overlaps the range keeps its room off the list |
| Availability.NotFreeNeverListed | app.py:555 | a room whose status is not 'livre' is never listed |
| Access.Fetch | app.py:302-311 | `fetchone` returns a stored row the WHERE clause selects, and returns nothing only when no stored row is selected |
| Access.Consult | app.py:282-314 | an unknown or empty user type is a 400; 200 comes with a stored reservation that has the requested id and that the caller may reach |
| Access.Cancel | app.py:410-439 | the handler writes nothing itself; an unknown or empty user type is a 400 with no call; the `cancelar_reserva` procedure is called only with the requested id and only when a reservation with that id is reachable by the caller; once called, the answer is 200 exactly when the procedure completes and 400 when it raises |
| Access.ConsultFollowsPolicy | app.py:290-314 | for a known user type, reading succeeds if and only if a reservation with that id exists that the caller may reach (admin: any; others: own) and whose client and room rows exist; missing and foreign both answer 404 |
| Access.ConsultReturnsStoredRow | app.py:292-311 | with unique reservation ids, a successful read returns exactly the reservation stored under that id |
| Access.ReceptionistSeesOnlyOwn | app.py:300-309 | a 'rececionista' has no privilege: for a reservation it does not own, reading and cancelling both answer 404 and no procedure is called |
| Access.CancelFollowsPolicy | app.py:419-436 | for a known user type, the cancel procedure is called if and only if a reachable reservation with that id exists; otherwise 404 with the database unchanged |
| Payments.MarkPaid | app.py:381-384 | the UPDATE keeps every row's length, id, room, client and dates; rows with the id become 'pago' and all others stay as they were |
| Payments.Pay | app.py:343-396 | a payment answers 201, 400 or 404; anything but 201 leaves the database unchanged; 201 appends exactly one payment and keeps earlier payments, users, rooms and audit |
| Payments.FalsyFieldRejected | app.py:348-353 | a missing or falsy `reserva_id`, `metodo_pagamento` or `valor` (zero amount, zero id, empty text) is a 400 with nothing read or written |
| Payments.ForeignPaymentRejected | app.py:362-369 | a non-admin paying for a reservation it does not own, whatever the form of the id the database reads (an int or an integer text), gets 404; no payment is appended and no status changes |
| Payments.PaymentEffect | app.py:371-386 | a successful payment appends exactly the payment `(id, method, amount)` and sets every row with that id to 'pago' whatever its prior status; every other reservation is unchanged |
| Payments.PaymentFollowsPolicy | app.py:343-386 | a payment succeeds if and only if the three fields are truthy, the database can read the id, the caller is an admin or owns a reservation with that id, and the database accepts the insert |
| Payments.PaymentKeepsIdsUnique | app.py:381-384 | paying preserves the uniqueness of reservation ids |
| Booking.RecordAudit | app.py:586-603 | an audit write appends exactly its entry when it succeeds and leaves the trail unchanged when it fails; nothing else in the database changes |
| Booking.CreateReservation | app.py:213-271 | creating a reservation changes nothing but the audit trail, by at most one entry; the procedure is called only for the caller and only with a room id that reads as an existing room; once called, the answer is 201 exactly when the procedure completes and 400 when it raises |
| Booking.GatesDecide | app.py:214-241 | the first failing gate (body, required fields, check-in parse, check-out parse) decides the answer before any write; only when all pass is the audit entry attempted |
| Booking.GatesPassIff | app.py:215-228 | every gate passes exactly when the body is present, the three fields are truthy and both dates are text that parses |
| Booking.BadDateNoAudit | app.py:226-264 | a date text that does not parse is a 400 with no audit entry and no procedure call |
| Booking.NonTextDateIsServerError | app.py:227-271 | a check-in date that is not text escapes the ValueError clause and answers 500, with no audit entry |
| Booking.UnknownRoomAudited | app.py:233-246 | an unknown room answers 404 after the audit entry `INSERIR RESERVA` with the request's fields has been written, and no procedure is called |
| Booking.AuditFailureHarmless | app.py:586-603 | a failed audit write never changes the status or the procedure call; the result differs only in the audit trail |
| Booking.CalledIffGatesAndRoom | app.py:243-250 | the procedure is called if and only if every gate passes and the room id names an existing room; it receives the parsed check-in and check-out days |
| Images.Upload | app.py:457-499 | 403 exactly when the caller is neither admin nor 'rececionista'; 200 exactly when the caller may upload, the file part has a name, the room id is non-empty and names an existing room; only 200 changes the database, and then only the image of the room named by the form id, which must exist |
| Images.GetImage | app.py:508-528 | 200 exactly when bytes are returned, and they are the stored, non-empty image of an existing room |
| Images.UploadRoleGate | app.py:458-461 | a caller who is not admin or receptionist gets 403 before any other check, and nothing is stored |
| Images.UploadThenGet | app.py:485-528 | after a successful upload, reading the room's image returns the uploaded bytes; an empty upload reads back as 404 |
| Images.UploadTouchesOneRoom | app.py:488-491 | an upload leaves the image of every other room as it was |
| Api.CallDbFunction | api/app.py:38-57 | no connection and a database error give an error dict with status 500; no result set, no row or an empty row give None; otherwise the first row itself |
| Api.Relay | api/app.py:149-152 | a None result answers 500; an error dict answers its own status; a row answers the success status when it carries the columns the handler reads, else 500 |
| Api.DbFailuresAreServerErrors | api/app.py:38-57 | connection failures and database errors are never None but error dicts with status 500; None comes only from a call that produced no row |
| Api.Register | api/app.py:62-85 | the stored function is skipped exactly when the body is missing or empty or a required key is absent, and that is a 400 |
| Api.Login | api/app.py:88-122 | `verificar_credenciais` is skipped, with 400, exactly when the body is missing or empty or a required key is absent; 200 only when the lookup returned a row that is not an error and carries id, email and type |
| Api.LoginFailureIs401 | api/app.py:88-105 | once the keys are present, login answers 401 if and only if the lookup gave no row or an error dict; so a lost connection, a database error or no row is 401, never 500 (over the replies the model expresses; see `Api.CallDbFunction` under Left out) |
| Api.PresenceNotValue | api/app.py:67-69 | required fields are checked by key presence only: every body carrying the keys, whatever values they hold, reaches the registration and the credential functions |
| Api.CreateReservationAsWritten | api/app.py:139-147 | as written, the procedure is called only after `int(quarto_id)` succeeds, and a room id that raises TypeError answers 500 |
| Api.CreateReservation | api/app.py:128-152 | corrected handler: the `criar_reserva` function is called if and only if the body has the three keys and the room id converts to an integer; otherwise 400 |
| Api.NonIntegerRoomRejected | api/app.py:140-147 | corrected handler: a room id that does not convert to an integer is a 400 and the stored function is not called |
| Api.NullRoomIdDiscrepancy | api/app.py:135-147 | a body whose room id is null answers 500 as written and 400 once corrected |
| Api.CorrectionIsConfined | api/app.py:139-147 | the corrected handler agrees with the one as written on every request except a room id that raises TypeError |
| Api.ConsultReservation | api/app.py:156-168 | reading always hands the request to `consultar_reserva`; 200 needs a result, and a lost connection is 500 |
| Api.CancelReservation | api/app.py:201-213 | cancelling always hands the request to `cancelar_reserva`; 200 needs a result, and a lost connection is 500 |
| Api.ProcessPayment | api/app.py:172-197 | the payment function is called if and only if the three keys are present, `int(reserva_id)` succeeds and `float(valor)` raises nothing; otherwise 400, except an amount too large for a double, whose uncaught OverflowError is 500 |
| Api.ZeroAmountReachesDatabase | api/app.py:179-192 | every body with the three keys whose id and amount are JSON integers reaches the stored function, zero id, zero amount and empty method included; only an amount too large for a double stops it |
| Api.UploadImage | api/app.py:246-286 | the stored function is called only with a file of at most 5·1024·1024 bytes whose type is JPEG or PNG, and with a room id that is an integer literal of at most 4300 digits |
| Api.UploadFirstFailureDecides | api/app.py:249-272 | upload checks run in the order file, room id present, room id integer, size, type; the first failure decides the answer and nothing is called; only when all pass is the function called |
| Api.UploadSizeLimit | api/app.py:264-266 | an image over 5·1024·1024 bytes is a 400; one of exactly that size passes the size check and, when JPEG or PNG, reaches the stored function |
| Api.UploadTypeAllowList | api/app.py:268-270 | any content type other than exactly 'image/jpeg' or 'image/png', or none, is a 400 |
| Api.GetRoomImage | api/app.py:217-242 | 404 exactly when the call produced no row; 200 only for a row carrying an `imagem` column; everything else is 500 |
| Api.ImageReadAgreesWithHelper | api/app.py:38-57 | the image read, which does not use the helper, reads a result set as the helper does: 404 exactly when the helper would give None, 200 exactly when the helper's row has an `imagem` column |
| Api.DbFailuresAnswer500 | api/app.py:38-57 | end to end, a lost connection or a database error answers 500 from the relay, from every handler once it has called its stored function, and from the image read |

## Left out

- The stored procedures and functions `criar_reserva`, `cancelar_reserva`, `consultar_reserva`, `processar_pagamento`, `registar_cliente`, `verificar_credenciais`, `upload_imagem_quarto` and `obter_imagem_quarto` are only called, never shown. Their replies are parameters, and their writes are not part of the modelled database. So the model says nothing about:
  - overlap rejection on create;
  - total amounts;
  - cancel idempotence;
  - payment of cancelled reservations through `api/app.py`.
- The race between the availability query and the insert happens inside the database. Concurrency is not modelled.
- `app.py` `register`, `login` and `token_required`, and JWT issuance in `api/app.py` login, depend on bcrypt and JWT libraries. The caller's id, and in `api/app.py` the profile too, are taken as already verified.
- Calendar validity of dates is left to the `parse` / `cast` parameter, which stands for `strptime` or PostgreSQL's `::date`.
- Database connection failures in the `app.py` handlers are not modelled. Errors inside `get_user_type` are not modelled either; an unknown user stands for them.
- Response bodies are not modelled: JSON messages, reservation views, `lastval()` and `RETURNING` ids, float conversions of prices and totals. Only the status is. The `numero_quarto`, `nome_cliente` and `valor_total` view fields are not modelled.
- Flask routing, `request.files`, `send_file` and the fixed JPEG mimetype, environment and configuration loading are left out. So are JSON bodies that are not objects.
- Values.SqlInt: None is bound as SQL NULL, and `WHERE id = NULL` selects no row without raising; the model treats it as a statement failure. Every use of the function is preceded by a truthiness check (`app.py:222`, `:352`) or binds form text, so no handler reaches this case.
- Values.PyInt: a JSON integer of more than 4300 digits fails to decode, so Flask answers 400 before any handler runs; the model's `Int` values have no digit limit.
- Values.SqlInt: a JSON float or boolean id is treated as a statement failure. PostgreSQL would compare a float numerically. Leading and trailing blanks in an id text are not accepted in the model.
- Values.PyInt: Python also accepts surrounding whitespace, digit underscores and non-ASCII decimal digits (`int("５") == 5`) in `int()` text. The model accepts only a sign and ASCII digits, so it rejects such an id where `api/app.py:142`, `:185` and `:259` convert it.
- Values.PyInt: JSON numbers that Python decodes to an infinite or NaN float are not values of the model. These are a standard literal too large for a double, such as `1e400`, and the constants `Infinity` and `NaN`, which Python's decoder also accepts. `int()` of an infinity raises OverflowError. That escapes both `except ValueError` at `api/app.py:146` and `except (ValueError, TypeError)` at `api/app.py:191`, so the answer is 500. `int()` of NaN raises ValueError, which both clauses turn into 400.
- Values.FloatError: `float()` text is never read as an overflow, because Python reads a too-large literal as infinity; exponents, `inf`, `nan`, whitespace, underscores and non-ASCII decimal digits (`float("٣") == 3.0`) in `float()` text are not accepted in the model, which reads them as ValueError.
- Api.CallDbFunction: the helper catches only `psycopg2.Error`. The driver raises a plain ValueError when a text argument holds a NUL character, and `DbReply` cannot express that. In `login` and `register` it would escape as 500. In `criar_reserva` and `processar_pagamento` the handlers' `except` clauses turn it into 400.
- Api.Relay: a `status` entry that is not an integer is treated as 500. Flask's handling of such a status is not modelled.
- Api.GetRoomImage: returns only the status, not the image bytes.
- Availability.ListedIffNoSharedNight: holds for a requested check-out after the check-in. The handler does not reject an empty or inverted range; what it lists then is stated by Availability.InvertedRangeListing instead.
- Availability.ListedIffNoSharedNight: it also assumes that every stored stay checks out after it checks in. That is the design's reservation invariant. Only the `criar_reserva` procedure could enforce it, and its body is not part of this model: `app.py:227-250` hands it any two parsed dates. A stored stay that breaks the invariant holds no night, yet it can still block a room. Availability.DegenerateStayHidesRoom states when.

## Findings

| source | as written | input that shows it | evidently intended | confidence | as-written member | corrected member |
|---|---|---|---|---|---|---|
| api/app.py:139-147 | `int(data['quarto_id'])` is guarded by `except ValueError` only, so `int(None)`, `int([...])` or `int({...})` raises TypeError, which escapes the handler (500) | `{"quarto_id": null, "data_entrada": "2025-06-01", "data_saida": "2025-06-03"}` | 400 "ID do quarto inválido", as the same handler answers for text ids and as `processar_pagamento` does by catching `(ValueError, TypeError)` | medium; not executed | Api.CreateReservationAsWritten | Api.CreateReservation |

=== FILE: access.dfy ===
/** `consultar_reserva` and `cancelar_reserva`: who may reach which reservation. An
    admin reaches any reservation; every other user type reaches only its own, and a
    missing reservation and someone else's answer alike (404).
 */
module Access {
  import opened Values
  import opened Store

  /** The policy the handlers' queries implement. */
  predicate MayReach(role: Option<string>, caller: int, r: Reservation) {
    IsAdmin(role) || r.client == caller
  }

  /** The client-id filter a query adds: none for an admin, the caller otherwise. */
  function OwnerFilter(role: Option<string>, caller: int): Option<int> {
    if IsAdmin(role) then None else Some(caller)
  }

  /** The consult query's inner joins need the client's user row and the room row. */
  predicate Joined(db: Db, r: Reservation) {
    r.client in db.users && r.room in db.rooms
  }

  /** One row of a `WHERE id_reserva = id [AND cliente_id = owner]` query. */
  predicate Selects(db: Db, r: Reservation, id: int, owner: Option<int>, joins: bool) {
    && r.id == id
    && (owner.None? || r.client == owner.value)
    && (!joins || Joined(db, r))
  }

  /** `fetchone()`: the first selected row, if any. */
  function Fetch(db: Db, rs: seq<Reservation>, id: int, owner: Option<int>, joins: bool): (row: Option<Reservation>)
    ensures row.Some? ==> row.value in rs && Selects(db, row.value, id, owner, joins)
    ensures row.None? ==> forall i :: 0 <= i < |rs| ==> !Selects(db, rs[i], id, owner, joins)
    decreases |rs|
  {
    if rs == [] then None
    else if Selects(db, rs[0], id, owner, joins) then Some(rs[0])
    else Fetch(db, rs[1..], id, owner, joins)
  }

  datatype Lookup = Lookup(status: int, found: Option<Reservation>)

  /** `consultar_reserva`: an unknown or empty user type is a 400; otherwise the scoped
      query decides between 200 and 404. */
  function Consult(db: Db, caller: int, id: int): (l: Lookup)
    ensures l.status in {200, 400, 404}
    ensures l.status == 400 <==> !KnownRole(UserType(db, caller))
    ensures l.status == 200 <==> l.found.Some?
    ensures l.found.Some? ==>
      && l.found.value in db.reservations
      && l.found.value.id == id
      && MayReach(UserType(db, caller), caller, l.found.value)
  {
    var role := UserType(db, caller);
    if !KnownRole(role) then Lookup(400, None)
    else
      match Fetch(db, db.reservations, id, OwnerFilter(role, caller), true)
      case None => Lookup(404, None)
      case Some(r) => Lookup(200, Some(r))
  }

  /** `cancelar_reserva`: the same scoping without the joins; only a reachable
      reservation is handed to the `cancelar_reserva` procedure, whose failure is a
      400. The handler itself writes nothing. */
  function Cancel(db: Db, caller: int, id: int, proc: ProcReply): (o: Outcome)
    ensures o.status in {200, 400, 404}
    ensures o.db == db
    ensures !KnownRole(UserType(db, caller)) ==> o == Outcome(400, db, None)
    ensures o.call.Some? ==> o.call.value == CancelReservationCall(id)
    ensures o.call.Some? ==> (o.status == 200 <==> proc == Completed) && (proc.Raised? ==> o.status == 400)
    ensures o.status == 200 ==> o.call.Some?
    ensures o.call.Some? ==>
      exists i :: 0 <= i < |db.reservations| && db.reservations[i].id == id
        && MayReach(UserType(db, caller), caller, db.reservations[i])
  {
    var role := UserType(db, caller);
    if !KnownRole(role) then Outcome(400, db, None)
    else
      match Fetch(db, db.reservations, id, OwnerFilter(role, caller), false)
      case None => Outcome(404, db, None)
      case Some(_) =>
        Outcome(if proc == Completed then 200 else 400, db, Some(CancelReservationCall(id)))
  }

  // ---------------------------------------------------------------------------
  // Scoping against the policy

  /** For a known user type, consulting succeeds exactly when a reservation with that
      id exists, the caller may reach it, and its client and room rows exist; missing
      and foreign both answer 404. */
  lemma ConsultFollowsPolicy(db: Db, caller: int, id: int)
    requires KnownRole(UserType(db, caller))
    ensures Consult(db, caller, id).status == 200 <==>
      exists i :: 0 <= i < |db.reservations| && db.reservations[i].id == id
        && MayReach(UserType(db, caller), caller, db.reservations[i]) && Joined(db, db.reservations[i])
    ensures Consult(db, caller, id).status != 200 ==> Consult(db, caller, id).status == 404
  {
    var role := UserType(db, caller);
    var rs := db.reservations;
    if Consult(db, caller, id).status == 200 {
      var r := Consult(db, caller, id).found.value;
      var i :| 0 <= i < |rs| && rs[i] == r;
      assert Selects(db, rs[i], id, OwnerFilter(role, caller), true);
    } else {
      forall i | 0 <= i < |rs| && rs[i].id == id && MayReach(role, caller, rs[i]) && Joined(db, rs[i])
        ensures false
      {
        assert Selects(db, rs[i], id, OwnerFilter(role, caller), true);
      }
    }
  }

  /** With unique ids, what consulting returns is the reservation stored under that id. */
  lemma ConsultReturnsStoredRow(db: Db, caller: int, k: int)
    requires UniqueIds(db.reservations)
    requires 0 <= k < |db.reservations|
    requires Consult(db, caller, db.reservations[k].id).status == 200
    ensures Consult(db, caller, db.reservations[k].id).found == Some(db.reservations[k])
  {
  }

  /** A front-desk user has no privilege here: it reaches only reservations it owns. */
  lemma ReceptionistSeesOnlyOwn(db: Db, caller: int, id: int)
    requires UserType(db, caller) == Some(RECEPTIONIST)
    requires forall i :: 0 <= i < |db.reservations| && db.reservations[i].id == id ==> db.reservations[i].client != caller
    ensures Consult(db, caller, id).status == 404
    ensures Cancel(db, caller, id, Completed).status == 404
    ensures Cancel(db, caller, id, Completed).call.None?
  {
  }

  /** Cancelling reaches a procedure call exactly when the policy allows it; a missing
      or foreign reservation answers 404 without any call and leaves the database as it was. */
  lemma CancelFollowsPolicy(db: Db, caller: int, id: int, proc: ProcReply)
    requires KnownRole(UserType(db, caller))
    ensures Cancel(db, caller, id, proc).call.Some? <==>
      exists i :: 0 <= i < |db.reservations| && db.reservations[i].id == id
        && MayReach(UserType(db, caller), caller, db.reservations[i])
    ensures Cancel(db, caller, id, proc).call.None? ==>
      Cancel(db, caller, id, proc).status == 404 && Cancel(db, caller, id, proc).db == db
  {
    var role := UserType(db, caller);
    var rs := db.reservations;
    if Cancel(db, caller, id, proc).call.None? {
      forall i | 0 <= i < |rs| && rs[i].id == id && MayReach(role, caller, rs[i])
        ensures false
      {
        assert Selects(db, rs[i], id, OwnerFilter(role, caller), false);
      }
    }
  }
}

=== FILE: api.dfy ===
/** api/app.py: handlers that validate a request and hand it to a stored database
    function through `call_db_function`, relaying the function's row or error dict.
    What each stored function does is not part of the model: its reply is a parameter.
 */
module Api {
  import opened Values

  const MAX_IMAGE_BYTES := 5 * 1024 * 1024
  const JPEG := "image/jpeg"
  const PNG := "image/png"
  const CONNECTION_ERROR := "Erro de conexão com o banco de dados"

  /** How a stored function call ends on the database side: it raises a database error,
      it produces no result set, or it produces these rows. */
  datatype DbReply = Raised(message: string) | NoResultSet | ResultSet(rows: seq<Dict>)

  /** The error dict the helper builds: always status 500. */
  function ErrorDict(message: string): Dict {
    map["error" := Str(message), "status" := Int(500)]
  }

  predicate IsError(d: Dict) {
    "error" in d
  }

  /** `result.get('status', 500)`. */
  function StatusOf(d: Dict): int {
    if "status" in d && d["status"].Int? then d["status"].i else 500
  }

  /** `call_db_function`: no connection and a database error both give an error dict;
      no result set, no row or an empty row give None; otherwise the first row. */
  function CallDbFunction(connected: bool, reply: DbReply): (r: Option<Dict>)
    ensures !connected ==> r == Some(ErrorDict(CONNECTION_ERROR))
    ensures connected && reply.Raised? ==> r == Some(ErrorDict(reply.message))
    ensures connected && reply.NoResultSet? ==> r.None?
    ensures connected && reply.ResultSet? ==>
      (r.None? <==> reply.rows == [] || reply.rows[0] == map[])
      && (r.Some? ==> r.value == reply.rows[0])
  {
    if !connected then Some(ErrorDict(CONNECTION_ERROR))
    else match reply
      case Raised(message) => Some(ErrorDict(message))
      case NoResultSet => None
      case ResultSet(rows) => if rows == [] || rows[0] == map[] then None else Some(rows[0])
  }

  /** A handler's answer: the HTTP status and the stored function it handed the request
      to, if it got that far. */
  datatype Reply = Reply(status: int, called: Option<string>)

  /** The common tail of the handlers: `'error' in result` on None raises (500), an
      error dict answers with its status, and a row answers `okStatus` when it carries
      the columns the handler reads (a missing one raises KeyError: 500). */
  function Relay(name: string, result: Option<Dict>, okStatus: int, columns: seq<string>): (r: Reply)
    ensures r.called == Some(name)
    ensures result.None? ==> r.status == 500
    ensures result.Some? && IsError(result.value) ==> r.status == StatusOf(result.value)
    ensures result.Some? && !IsError(result.value) ==>
      (r.status == okStatus <== HasKeys(result.value, columns))
      && (!HasKeys(result.value, columns) ==> r.status == 500)
  {
    match result
    case None => Reply(500, Some(name))
    case Some(d) =>
      if IsError(d) then Reply(StatusOf(d), Some(name))
      else if HasKeys(d, columns) then Reply(okStatus, Some(name))
      else Reply(500, Some(name))
  }

  /** A connection failure or a database error never looks like "no row": it is an
      error dict whose status is 500; None only comes from a call that produced no row. */
  lemma DbFailuresAreServerErrors(connected: bool, reply: DbReply)
    ensures !connected || reply.Raised? ==>
      CallDbFunction(connected, reply).Some?
      && IsError(CallDbFunction(connected, reply).value)
      && StatusOf(CallDbFunction(connected, reply).value) == 500
    ensures CallDbFunction(connected, reply).None? <==>
      connected && (reply.NoResultSet? || (reply.ResultSet? && (reply.rows == [] || reply.rows[0] == map[])))
  {
  }

  // ---------------------------------------------------------------------------
  // Public endpoints

  /** `register`: the three fields must be present as keys (their values are not
      looked at); the new user's id must come back. */
  function Register(body: Option<Dict>, connected: bool, reply: DbReply): (r: Reply)
    ensures r.called.None? ==> r.status == 400
    ensures r.called.None? <==> !HasBody(body) || !HasKeys(body.value, ["nome", "email", "password"])
    ensures r.status == 201 ==> r.called == Some("registar_cliente")
  {
    if !HasBody(body) then Reply(400, None)
    else if !HasKeys(body.value, ["nome", "email", "password"]) then Reply(400, None)
    else
      Relay("registar_cliente", CallDbFunction(connected, reply), 201, ["id_utilizador"])
  }

  /** `login`: a failed credential lookup (no row, or any error dict) is 401. */
  function Login(body: Option<Dict>, connected: bool, reply: DbReply): (r: Reply)
    ensures r.status in {200, 400, 401, 500}
    ensures r.called.None? <==> r.status == 400
    ensures r.called.None? <==> !HasBody(body) || !HasKeys(body.value, ["email", "password"])
    ensures r.status == 200 ==>
      var user := CallDbFunction(connected, reply);
      user.Some? && !IsError(user.value)
      && HasKeys(user.value, ["id_utilizador", "email_utilizador", "tipo_utilizador"])
  {
    if !HasBody(body) then Reply(400, None)
    else if !HasKeys(body.value, ["email", "password"]) then Reply(400, None)
    else
      var user := CallDbFunction(connected, reply);
      if user.None? || IsError(user.value) then Reply(401, Some("verificar_credenciais"))
      else if !HasKeys(user.value, ["id_utilizador", "email_utilizador", "tipo_utilizador"]) then
        Reply(500, Some("verificar_credenciais"))
      else Reply(200, Some("verificar_credenciais"))
  }

  /** Once the keys are there, login answers 401 exactly when the credential lookup
      fails: no row, or an error dict, whether the stored function returned it or the
      helper built it for a lost connection or a database error. Those last two are
      therefore 401 and never 500. */
  lemma LoginFailureIs401(body: Option<Dict>, connected: bool, reply: DbReply)
    requires HasBody(body) && HasKeys(body.value, ["email", "password"])
    ensures Login(body, connected, reply).status == 401 <==>
      CallDbFunction(connected, reply).None? || IsError(CallDbFunction(connected, reply).value)
    ensures !connected || reply.Raised? || reply.NoResultSet? || (reply.ResultSet? && reply.rows == []) ==>
      Login(body, connected, reply).status == 401
  {
  }

  /** Key presence is all that is checked: whatever the fields hold (empty text, null,
      zero), a body carrying the keys reaches the stored function. */
  lemma PresenceNotValue(body: Dict, connected: bool, reply: DbReply)
    requires HasKeys(body, ["nome", "email", "password"])
    ensures Register(Some(body), connected, reply).called == Some("registar_cliente")
    ensures Login(Some(body), connected, reply).called == Some("verificar_credenciais")
  {
    var fields := ["nome", "email", "password"];
    assert fields[0] in body && fields[1] in body && fields[2] in body;
    assert HasKeys(body, ["email", "password"]);
  }

  // ---------------------------------------------------------------------------
  // Reservations and payments (the JWT identity is passed to the stored function and
  // is not looked at here)

  const RESERVATION_FIELDS := ["quarto_id", "data_entrada", "data_saida"]

  /** `criar_reserva` as written: only ValueError from `int(quarto_id)` is caught, so a
      TypeError (a null, a list or an object) escapes the handler and answers 500. */
  function CreateReservationAsWritten(body: Option<Dict>, connected: bool, reply: DbReply): (r: Reply)
    ensures r.called.Some? ==> HasBody(body) && PyInt(Get(body.value, "quarto_id")).Converted?
    ensures (HasBody(body) && HasKeys(body.value, RESERVATION_FIELDS)
             && PyInt(Get(body.value, "quarto_id")) == Raises(TypeError)) ==> r == Reply(500, None)
  {
    if !HasBody(body) then Reply(400, None)
    else if !HasKeys(body.value, RESERVATION_FIELDS) then Reply(400, None)
    else match PyInt(Get(body.value, "quarto_id"))
      case Raises(ValueError) => Reply(400, None)
      case Raises(TypeError) => Reply(500, None)
      case Raises(OverflowError) => Reply(500, None)
      case Converted(_) => Relay("criar_reserva", CallDbFunction(connected, reply), 201, [])
  }

  /** `criar_reserva` with both conversion errors answering 400, as the handler's own
      "invalid room id" reply and the payment handler's `except (ValueError, TypeError)`
      intend. */
  function CreateReservation(body: Option<Dict>, connected: bool, reply: DbReply): (r: Reply)
    ensures r.called.Some? <==>
      HasBody(body) && HasKeys(body.value, RESERVATION_FIELDS) && PyInt(Get(body.value, "quarto_id")).Converted?
    ensures r.called.None? ==> r.status == 400
  {
    if !HasBody(body) then Reply(400, None)
    else if !HasKeys(body.value, RESERVATION_FIELDS) then Reply(400, None)
    else match PyInt(Get(body.value, "quarto_id"))
      case Raises(_) => Reply(400, None)
      case Converted(_) => Relay("criar_reserva", CallDbFunction(connected, reply), 201, [])
  }

  /** A room id that does not convert to an integer (text such as "abc", a null, a list)
      is a 400 and the stored function is never called. */
  lemma NonIntegerRoomRejected(data: Dict, connected: bool, reply: DbReply)
    requires data != map[] && HasKeys(data, RESERVATION_FIELDS)
    requires PyInt(Get(data, "quarto_id")).Raises?
    ensures CreateReservation(Some(data), connected, reply) == Reply(400, None)
  {
  }

  /** The discrepancy: a null room id passes the presence check and then makes the
      handler as written fail with 500, where the corrected handler answers 400. */
  lemma NullRoomIdDiscrepancy(connected: bool, reply: DbReply)
    ensures
      var body := Some(map["quarto_id" := Null, "data_entrada" := Str("2025-06-01"), "data_saida" := Str("2025-06-03")]);
      && CreateReservationAsWritten(body, connected, reply) == Reply(500, None)
      && CreateReservation(body, connected, reply) == Reply(400, None)
  {
    var data := map["quarto_id" := Null, "data_entrada" := Str("2025-06-01"), "data_saida" := Str("2025-06-03")];
    assert "quarto_id" in data && HasKeys(data, RESERVATION_FIELDS);
  }

  /** The two agree everywhere except on a TypeError from the room id conversion. */
  lemma CorrectionIsConfined(body: Option<Dict>, connected: bool, reply: DbReply)
    requires !(HasBody(body) && HasKeys(body.value, RESERVATION_FIELDS)
               && PyInt(Get(body.value, "quarto_id")) == Raises(TypeError))
    ensures CreateReservationAsWritten(body, connected, reply) == CreateReservation(body, connected, reply)
  {
  }

  /** `consultar_reserva` and `cancelar_reserva` pass the id and the identity on and
      relay the answer. */
  function ConsultReservation(connected: bool, reply: DbReply): (r: Reply)
    ensures r.called == Some("consultar_reserva")
    ensures r.status == 200 ==> CallDbFunction(connected, reply).Some?
    ensures !connected ==> r.status == 500
  {
    Relay("consultar_reserva", CallDbFunction(connected, reply), 200, [])
  }

  function CancelReservation(connected: bool, reply: DbReply): (r: Reply)
    ensures r.called == Some("cancelar_reserva")
    ensures r.status == 200 ==> CallDbFunction(connected, reply).Some?
    ensures !connected ==> r.status == 500
  {
    Relay("cancelar_reserva", CallDbFunction(connected, reply), 200, [])
  }

  const PAYMENT_FIELDS := ["reserva_id", "metodo_pagamento", "valor"]

  /** `processar_pagamento`: presence of the three keys, then `int(reserva_id)` and
      `float(valor)`, where both ValueError and TypeError answer 400; the OverflowError
      of an amount too large for a double is not caught and answers 500. */
  function ProcessPayment(body: Option<Dict>, connected: bool, reply: DbReply): (r: Reply)
    ensures r.called.Some? <==>
      && HasBody(body) && HasKeys(body.value, PAYMENT_FIELDS)
      && PyInt(Get(body.value, "reserva_id")).Converted?
      && FloatError(Get(body.value, "valor")).None?
    ensures r.called.None? ==>
      if HasBody(body) && HasKeys(body.value, PAYMENT_FIELDS) && PyInt(Get(body.value, "reserva_id")).Converted?
         && FloatError(Get(body.value, "valor")) == Some(OverflowError)
      then r.status == 500
      else r.status == 400
  {
    if !HasBody(body) then Reply(400, None)
    else if !HasKeys(body.value, PAYMENT_FIELDS) then Reply(400, None)
    else if PyInt(Get(body.value, "reserva_id")).Raises? then Reply(400, None)
    else if FloatError(Get(body.value, "valor")) == Some(OverflowError) then Reply(500, None)
    else if FloatError(Get(body.value, "valor")).Some? then Reply(400, None)
    else Relay("processar_pagamento", CallDbFunction(connected, reply), 200, [])
  }

  /** Unlike app.py, a zero amount or a zero id is not rejected here: only presence
      and convertibility are checked, so any integer id and any integer amount a double
      can hold reach the stored function, whatever the method. */
  lemma ZeroAmountReachesDatabase(body: Dict, connected: bool, reply: DbReply)
    requires HasKeys(body, PAYMENT_FIELDS)
    requires Get(body, "reserva_id").Int? && Get(body, "valor").Int?
    requires -(FloatOverflowBound() as int) < Get(body, "valor").i < FloatOverflowBound()
    ensures ProcessPayment(Some(body), connected, reply).called == Some("processar_pagamento")
  {
    assert PAYMENT_FIELDS[0] in body;
  }

  // ---------------------------------------------------------------------------
  // Images

  predicate AllowedType(contentType: Option<string>) {
    contentType == Some(JPEG) || contentType == Some(PNG)
  }

  /** The upload checks in the order the handler makes them. */
  function UploadChecks(file: Option<FilePart>, roomId: Option<string>): seq<Check> {
    [ Check(file.Some?, 400),
      Check(roomId.Some? && roomId.value != "", 400),
      Check(roomId.Some? && PyInt(Str(roomId.value)).Converted?, 400),
      Check(file.Some? && |file.value.bytes| <= MAX_IMAGE_BYTES, 400),
      Check(file.Some? && AllowedType(file.value.contentType), 400) ]
  }

  /** `upload_imagem`: file part, room id present, room id an integer, size at most
      5 MiB, content type JPEG or PNG; then `upload_imagem_quarto` (a None result
      raises inside the handler's own generic clause: 500). No role is checked here;
      the stored function receives the caller's profile. */
  function UploadImage(file: Option<FilePart>, roomId: Option<string>, connected: bool, reply: DbReply): (r: Reply)
    ensures r.called.Some? ==> file.Some? && |file.value.bytes| <= MAX_IMAGE_BYTES && AllowedType(file.value.contentType)
    ensures r.called.Some? ==> roomId.Some? && IsIntLiteral(roomId.value) && |Unsigned(roomId.value)| <= MAX_STR_DIGITS
  {
    if file.None? then Reply(400, None)
    else if roomId.None? || roomId.value == "" then Reply(400, None)
    else if PyInt(Str(roomId.value)).Raises? then Reply(400, None)
    else if |file.value.bytes| > MAX_IMAGE_BYTES then Reply(400, None)
    else if !AllowedType(file.value.contentType) then Reply(400, None)
    else Relay("upload_imagem_quarto", CallDbFunction(connected, reply), 200, [])
  }

  /** The first failing check decides the answer and the stored function is not called;
      only when every check passes is it called. */
  lemma UploadFirstFailureDecides(file: Option<FilePart>, roomId: Option<string>, connected: bool, reply: DbReply)
    ensures
      var r := UploadImage(file, roomId, connected, reply);
      match FirstFailure(UploadChecks(file, roomId))
      case Some(status) => r == Reply(status, None)
      case None => r.called == Some("upload_imagem_quarto")
  {
    var c := UploadChecks(file, roomId);
    FirstFailureIsEarliest(c);
    if FirstFailure(c).Some? {
      var i :| 0 <= i < |c| && !c[i].passed && c[i].status == FirstFailure(c).value
        && forall j :: 0 <= j < i ==> c[j].passed;
      assert forall j :: 0 <= j < |c| ==> c[j].status == 400;
    } else {
      assert c[0].passed && c[1].passed && c[2].passed && c[3].passed && c[4].passed;
    }
  }

  /** An image one byte over 5 MiB is a 400 and is not stored; one of exactly 5 MiB passes
      the size check and, being JPEG or PNG, is handed to the stored function. */
  lemma UploadSizeLimit(file: FilePart, roomId: string, connected: bool, reply: DbReply)
    requires PyInt(Str(roomId)).Converted?
    ensures |file.bytes| > MAX_IMAGE_BYTES ==> UploadImage(Some(file), Some(roomId), connected, reply) == Reply(400, None)
    ensures |file.bytes| == MAX_IMAGE_BYTES && AllowedType(file.contentType) ==>
      UploadImage(Some(file), Some(roomId), connected, reply).called.Some?
  {
  }

  /** Any content type other than exactly 'image/jpeg' or 'image/png' (a GIF, a
      differently cased type, none at all) is a 400. */
  lemma UploadTypeAllowList(file: FilePart, roomId: string, connected: bool, reply: DbReply)
    requires !AllowedType(file.contentType)
    ensures UploadImage(Some(file), Some(roomId), connected, reply) == Reply(400, None)
  {
  }

  /** `obter_imagem_quarto`: no connection, a database error, or a row without an
      `imagem` column give 500; no row gives 404. */
  function GetRoomImage(connected: bool, reply: DbReply): (status: int)
    ensures status in {200, 404, 500}
    ensures status == 200 ==> connected && reply.ResultSet? && reply.rows != [] && "imagem" in reply.rows[0]
    ensures status == 404 <==> connected && reply.ResultSet? && (reply.rows == [] || reply.rows[0] == map[])
  {
    if !connected then 500
    else match reply
      case Raised(_) => 500
      case NoResultSet => 500
      case ResultSet(rows) =>
        if rows == [] || rows[0] == map[] then 404
        else if "imagem" in rows[0] then 200
        else 500
  }

  /** The image read issues its own call instead of going through the helper, yet reads
      a result set the same way: 404 exactly when the helper would give None (no row or
      an empty one), 200 exactly when the helper's row carries an `imagem` column. */
  lemma ImageReadAgreesWithHelper(rows: seq<Dict>)
    ensures GetRoomImage(true, ResultSet(rows)) == 404 <==> CallDbFunction(true, ResultSet(rows)).None?
    ensures GetRoomImage(true, ResultSet(rows)) == 200 <==>
      CallDbFunction(true, ResultSet(rows)).Some? && "imagem" in CallDbFunction(true, ResultSet(rows)).value
  {
  }

  // ---------------------------------------------------------------------------
  // Error mapping end to end

  /** A lost connection or a database error reaches the client as 500 from every
      handler once it has handed the request to its stored function (login excepted,
      which reports 401), and from the image read. */
  lemma DbFailuresAnswer500(
    name: string, okStatus: int, columns: seq<string>, body: Option<Dict>,
    file: Option<FilePart>, roomId: Option<string>, connected: bool, reply: DbReply)
    requires !connected || reply.Raised?
    ensures Relay(name, CallDbFunction(connected, reply), okStatus, columns).status == 500
    ensures Register(body, connected, reply).called.Some? ==> Register(body, connected, reply).status == 500
    ensures CreateReservation(body, connected, reply).called.Some? ==>
      CreateReservation(body, connected, reply).status == 500
    ensures CreateReservationAsWritten(body, connected, reply).called.Some? ==>
      CreateReservationAsWritten(body, connected, reply).status == 500
    ensures ConsultReservation(connected, reply).status == 500
    ensures CancelReservation(connected, reply).status == 500
    ensures ProcessPayment(body, connected, reply).called.Some? ==> ProcessPayment(body, connected, reply).status == 500
    ensures UploadImage(file, roomId, connected, reply).called.Some? ==>
      UploadImage(file, roomId, connected, reply).status == 500
    ensures GetRoomImage(connected, reply) == 500
  {
    DbFailuresAreServerErrors(connected, reply);
  }
}

=== FILE: availability.dfy ===
/** `listar_quartos_disponiveis`: the rooms that may be booked for a requested stay. */
module Availability {
  import opened Values
  import opened Store

  /** A reservation still counts against the room: its status is not 'cancelado'. A
      NULL status compares as unknown in SQL, so such a reservation does not count. */
  predicate Live(r: Reservation) {
    r.status.Some? && r.status.value != CANCELLED
  }

  /** The row test of the NOT EXISTS sub-query: a live reservation on the room whose
      stay starts before the requested check-out and ends after the requested check-in. */
  predicate Blocks(r: Reservation, room: int, checkin: int, checkout: int) {
    && r.room == room
    && r.checkin < checkout
    && r.checkout > checkin
    && Live(r)
  }

  /** The whole WHERE clause for one room. */
  predicate Bookable(db: Db, room: int, checkin: int, checkout: int)
    requires room in db.rooms
  {
    && db.rooms[room].status == FREE
    && forall i :: 0 <= i < |db.reservations| ==> !Blocks(db.reservations[i], room, checkin, checkout)
  }

  datatype Listing = Listing(status: int, rooms: set<int>)

  /** The handler: both dates are required (missing or empty text is a 400); each is
      cast to a date by the database (`cast`), and a failed cast ends in the generic
      exception handler (500). */
  function ListAvailable(db: Db, checkin: Option<string>, checkout: Option<string>, cast: string -> Option<int>): (l: Listing)
    ensures l.status in {200, 400, 500}
    ensures l.status == 400 <==> checkin.None? || checkout.None? || checkin.value == "" || checkout.value == ""
    ensures l.status == 200 <==>
      checkin.Some? && checkout.Some? && checkin.value != "" && checkout.value != ""
      && cast(checkin.value).Some? && cast(checkout.value).Some?
    ensures l.status != 200 ==> l.rooms == {}
    ensures l.rooms <= db.rooms.Keys
  {
    if checkin.None? || checkout.None? || checkin.value == "" || checkout.value == "" then
      Listing(400, {})
    else
      match (cast(checkin.value), cast(checkout.value))
      case (Some(a), Some(b)) =>
        Listing(200, set room | room in db.rooms && Bookable(db, room, a, b))
      case _ =>
        Listing(500, {})
  }

  // ---------------------------------------------------------------------------
  // Reference reading: nights

  /** A reservation holds the room on night d when it has checked in by d and checks
      out after it: stays are half-open intervals [checkin, checkout). */
  predicate Occupies(r: Reservation, night: int) {
    r.checkin <= night < r.checkout
  }

  /** For non-empty stays the SQL test is exactly "shares a night with the request". */
  lemma BlocksIffSharesNight(r: Reservation, room: int, checkin: int, checkout: int)
    requires r.checkin < r.checkout && checkin < checkout
    ensures Blocks(r, room, checkin, checkout) <==>
      r.room == room && Live(r) && exists night :: checkin <= night < checkout && Occupies(r, night)
  {
    if Blocks(r, room, checkin, checkout) {
      var night := if r.checkin < checkin then checkin else r.checkin;
      assert Occupies(r, night);
    }
  }

  /** A room is listed for a well-formed request over well-formed reservations exactly
      when it is 'livre' and no live reservation on it holds any requested night. */
  lemma ListedIffNoSharedNight(db: Db, ci: string, co: string, cast: string -> Option<int>, room: int)
    requires ci != "" && co != ""
    requires cast(ci).Some? && cast(co).Some? && cast(ci).value < cast(co).value
    requires forall i :: 0 <= i < |db.reservations| ==> db.reservations[i].checkin < db.reservations[i].checkout
    ensures room in ListAvailable(db, Some(ci), Some(co), cast).rooms <==>
      && room in db.rooms
      && db.rooms[room].status == FREE
      && forall i, night ::
           (0 <= i < |db.reservations| && db.reservations[i].room == room && Live(db.reservations[i])
            && cast(ci).value <= night < cast(co).value) ==> !Occupies(db.reservations[i], night)
  {
    var a, b := cast(ci).value, cast(co).value;
    var rs := db.reservations;
    forall i | 0 <= i < |rs|
      ensures Blocks(rs[i], room, a, b) <==>
        rs[i].room == room && Live(rs[i]) && exists night :: a <= night < b && Occupies(rs[i], night)
    {
      BlocksIffSharesNight(rs[i], room, a, b);
    }
  }

  /** A stored stay that does not check out after it checks in holds no night, yet it
      keeps a 'livre' room off the list for a request that starts before its check-out
      and ends after its check-in, even when no live reservation on the room holds any
      requested night. */
  lemma DegenerateStayHidesRoom(db: Db, ci: string, co: string, cast: string -> Option<int>, k: int)
    requires ci != "" && co != "" && cast(ci).Some? && cast(co).Some?
    requires 0 <= k < |db.reservations|
    requires Live(db.reservations[k]) && db.reservations[k].checkout <= db.reservations[k].checkin
    requires db.reservations[k].checkin < cast(co).value && cast(ci).value < db.reservations[k].checkout
    requires db.reservations[k].room in db.rooms && db.rooms[db.reservations[k].room].status == FREE
    requires forall i :: 0 <= i < |db.reservations| && i != k && db.reservations[i].room == db.reservations[k].room ==>
      !Live(db.reservations[i])
    ensures cast(ci).value < cast(co).value
    ensures forall i, night ::
      (0 <= i < |db.reservations| && db.reservations[i].room == db.reservations[k].room && Live(db.reservations[i])
       && cast(ci).value <= night < cast(co).value) ==> !Occupies(db.reservations[i], night)
    ensures db.reservations[k].room !in ListAvailable(db, Some(ci), Some(co), cast).rooms
  {
    assert Blocks(db.reservations[k], db.reservations[k].room, cast(ci).value, cast(co).value);
  }

  /** Back-to-back stays do not conflict: a reservation that checks out on the requested
      check-in day, or checks in on the requested check-out day, never blocks. */
  lemma BackToBackNeverBlocks(r: Reservation, room: int, checkin: int, checkout: int)
    requires r.checkout == checkin || r.checkin == checkout
    ensures !Blocks(r, room, checkin, checkout)
  {
  }

  /** A reservation that is not live ('cancelado', or a NULL status) is invisible to the
      listing: adding one changes no answer, for any request. */
  lemma CancelledNeverBlocks(db: Db, ci: Option<string>, co: Option<string>, cast: string -> Option<int>, r: Reservation)
    requires !Live(r)
    ensures ListAvailable(db.(reservations := db.reservations + [r]), ci, co, cast) == ListAvailable(db, ci, co, cast)
  {
    var db' := db.(reservations := db.reservations + [r]);
    if ListAvailable(db, ci, co, cast).status == 200 {
      var a, b := cast(ci.value).value, cast(co.value).value;
      forall room | room in db.rooms
        ensures Bookable(db', room, a, b) <==> Bookable(db, room, a, b)
      {
        if Bookable(db, room, a, b) {
          forall i | 0 <= i < |db'.reservations| ensures !Blocks(db'.reservations[i], room, a, b) {
            if i < |db.reservations| { assert db'.reservations[i] == db.reservations[i]; }
          }
        }
        if Bookable(db', room, a, b) {
          forall i | 0 <= i < |db.reservations| ensures !Blocks(db.reservations[i], room, a, b) {
            assert db'.reservations[i] == db.reservations[i];
          }
        }
      }
    }
  }

  /** The handler does not check that check-out follows check-in. For an empty or
      inverted range no night is requested, yet the strict test still blocks on a live
      reservation that holds both the night before the requested check-out and the
      requested check-in night. */
  lemma InvertedRangeBlocksIffSpans(r: Reservation, room: int, checkin: int, checkout: int)
    requires checkout <= checkin
    ensures Blocks(r, room, checkin, checkout) <==>
      r.room == room && Live(r) && Occupies(r, checkout - 1) && Occupies(r, checkin)
  {
  }

  /** The listing for an empty or inverted range: a 'livre' room is listed exactly when
      no live reservation on it spans from the night before check-out to the check-in
      night, so such a request does not list every free room. */
  lemma InvertedRangeListing(db: Db, ci: string, co: string, cast: string -> Option<int>, room: int)
    requires ci != "" && co != ""
    requires cast(ci).Some? && cast(co).Some? && cast(co).value <= cast(ci).value
    ensures room in ListAvailable(db, Some(ci), Some(co), cast).rooms <==>
      && room in db.rooms
      && db.rooms[room].status == FREE
      && forall i :: 0 <= i < |db.reservations| && db.reservations[i].room == room && Live(db.reservations[i]) ==>
           !(Occupies(db.reservations[i], cast(co).value - 1) && Occupies(db.reservations[i], cast(ci).value))
  {
    var a, b := cast(ci).value, cast(co).value;
    forall i | 0 <= i < |db.reservations|
      ensures Blocks(db.reservations[i], room, a, b) <==>
        db.reservations[i].room == room && Live(db.reservations[i])
        && Occupies(db.reservations[i], b - 1) && Occupies(db.reservations[i], a)
    {
      InvertedRangeBlocksIffSpans(db.reservations[i], room, a, b);
    }
  }

  /** Every other status, 'pago' included, keeps an overlapping reservation's room off
      the list. */
  lemma LiveOverlapBlocks(db: Db, ci: string, co: string, cast: string -> Option<int>, k: int)
    requires ci != "" && co != "" && cast(ci).Some? && cast(co).Some?
    requires 0 <= k < |db.reservations|
    requires db.reservations[k].status.Some? && db.reservations[k].status.value != CANCELLED
    requires db.reservations[k].checkin < cast(co).value && cast(ci).value < db.reservations[k].checkout
    ensures db.reservations[k].room !in ListAvailable(db, Some(ci), Some(co), cast).rooms
  {
    assert Blocks(db.reservations[k], db.reservations[k].room, cast(ci).value, cast(co).value);
  }

  /** A room that is not 'livre' is never listed, whatever its reservations. */
  lemma NotFreeNeverListed(db: Db, ci: Option<string>, co: Option<string>, cast: string -> Option<int>, room: int)
    requires room in db.rooms && db.rooms[room].status != FREE
    ensures room !in ListAvailable(db, ci, co, cast).rooms
  {
  }
}

=== FILE: booking.dfy ===
/** `criar_reserva` in app.py and `registrar_auditoria`: the order of the gates before
    the `criar_reserva` procedure is called, and the best-effort audit entry written
    before the room is looked up.
 */
module Booking {
  import opened Values
  import opened Store

  const INSERT_RESERVATION := "INSERIR RESERVA"

  /** What `datetime.strptime(v, '%Y-%m-%d')` does with a request value: a string is
      parsed by `parse` (None is a ValueError), anything else is a TypeError. */
  datatype DateRead = Parsed(day: int) | BadFormat | NotText

  function ReadDate(v: Value, parse: string -> Option<int>): DateRead {
    if !v.Str? then NotText
    else match parse(v.s)
      case Some(d) => Parsed(d)
      case None => BadFormat
  }

  /** The status a failed date read answers with: the `except ValueError` clause gives
      400, any other exception reaches the generic clause and gives 500. */
  function DateStatus(d: DateRead): int {
    if d.NotText? then 500 else 400
  }

  /** `registrar_auditoria`: it opens its own connection and swallows every error, so a
      failed write (`written` false) leaves the trail as it was and raises nothing. */
  function RecordAudit(db: Db, written: bool, entry: AuditEntry): (db': Db)
    ensures db'.users == db.users && db'.rooms == db.rooms
    ensures db'.reservations == db.reservations && db'.payments == db.payments
    ensures written ==> db'.audit == db.audit + [entry]
    ensures !written ==> db'.audit == db.audit
  {
    if written then db.(audit := db.audit + [entry]) else db
  }

  /** The request gates in the order the handler applies them. */
  function Gates(body: Option<Dict>, parse: string -> Option<int>): seq<Check> {
    var data := if body.Some? then body.value else map[];
    var room, ci, co := Get(data, "quarto_id"), Get(data, "data_checkin"), Get(data, "data_checkout");
    var inDate, outDate := ReadDate(ci, parse), ReadDate(co, parse);
    [ Check(HasBody(body), 400),
      Check(Truthy(room) && Truthy(ci) && Truthy(co), 400),
      Check(inDate.Parsed?, DateStatus(inDate)),
      Check(outDate.Parsed?, DateStatus(outDate)) ]
  }

  /** The handler. `dbUser` is what `SELECT current_user` reports, `audited` whether
      the audit insert succeeds, and `proc` how the `criar_reserva` procedure ends (a
      database error answers 400). The procedure's own writes are not modelled. */
  function CreateReservation(
    db: Db, caller: int, body: Option<Dict>, parse: string -> Option<int>,
    dbUser: string, audited: bool, proc: ProcReply): (o: Outcome)
    ensures o.status in {201, 400, 404, 500}
    ensures o.db.users == db.users && o.db.rooms == db.rooms
    ensures o.db.reservations == db.reservations && o.db.payments == db.payments
    ensures |db.audit| <= |o.db.audit| <= |db.audit| + 1 && o.db.audit[..|db.audit|] == db.audit
    ensures o.call.Some? ==> o.call.value.CreateReservationCall? && o.call.value.client == caller
    ensures o.call.Some? ==> SqlInt(o.call.value.room).Some? && SqlInt(o.call.value.room).value in db.rooms
    ensures o.status == 201 ==> o.call.Some?
    ensures o.call.Some? ==> (o.status == 201 <==> proc == Completed) && (proc.Raised? ==> o.status == 400)
  {
    if !HasBody(body) then Outcome(400, db, None)
    else
      var data := body.value;
      var room, ci, co := Get(data, "quarto_id"), Get(data, "data_checkin"), Get(data, "data_checkout");
      if !(Truthy(room) && Truthy(ci) && Truthy(co)) then Outcome(400, db, None)
      else
        var inDate := ReadDate(ci, parse);
        if !inDate.Parsed? then Outcome(DateStatus(inDate), db, None)
        else
          var outDate := ReadDate(co, parse);
          if !outDate.Parsed? then Outcome(DateStatus(outDate), db, None)
          else
            var db' := RecordAudit(db, audited, AuditEntry(dbUser, caller, INSERT_RESERVATION, [room, ci, co]));
            match SqlInt(room)
            case None => Outcome(400, db', None)
            case Some(k) =>
              if k !in db.rooms then Outcome(404, db', None)
              else
                var call := CreateReservationCall(caller, room, inDate.day, outDate.day);
                Outcome(if proc == Completed then 201 else 400, db', Some(call))
  }

  /** The handler answers as the first failing gate dictates, before any write; only
      when every gate passes is the audit entry attempted. */
  lemma GatesDecide(
    db: Db, caller: int, body: Option<Dict>, parse: string -> Option<int>,
    dbUser: string, audited: bool, proc: ProcReply)
    ensures
      var o := CreateReservation(db, caller, body, parse, dbUser, audited, proc);
      match FirstFailure(Gates(body, parse))
      case Some(status) => o == Outcome(status, db, None)
      case None =>
        o.db == RecordAudit(db, audited,
          AuditEntry(dbUser, caller, INSERT_RESERVATION,
            [Get(body.value, "quarto_id"), Get(body.value, "data_checkin"), Get(body.value, "data_checkout")]))
  {
    var g := Gates(body, parse);
    FirstFailureOfFour(g[0], g[1], g[2], g[3]);
    assert g == [g[0], g[1], g[2], g[3]];
  }

  /** FirstFailure unfolded over a chain of four checks. */
  lemma FirstFailureOfFour(a: Check, b: Check, c: Check, d: Check)
    ensures FirstFailure([a, b, c, d]) ==
      if !a.passed then Some(a.status)
      else if !b.passed then Some(b.status)
      else if !c.passed then Some(c.status)
      else if !d.passed then Some(d.status)
      else None
  {
    assert [d][1..] == [];
    assert FirstFailure([d]) == if !d.passed then Some(d.status) else None;
    assert [c, d][1..] == [d];
    assert FirstFailure([c, d]) == if !c.passed then Some(c.status) else FirstFailure([d]);
    assert [b, c, d][1..] == [c, d];
    assert FirstFailure([b, c, d]) == if !b.passed then Some(b.status) else FirstFailure([c, d]);
    assert [a, b, c, d][1..] == [b, c, d];
  }

  /** Every gate passes exactly when the body is there, all three fields are truthy and
      both dates parse. */
  lemma GatesPassIff(body: Option<Dict>, parse: string -> Option<int>)
    ensures FirstFailure(Gates(body, parse)).None? <==>
      && HasBody(body)
      && Truthy(Get(body.value, "quarto_id"))
      && Truthy(Get(body.value, "data_checkin")) && Truthy(Get(body.value, "data_checkout"))
      && ReadDate(Get(body.value, "data_checkin"), parse).Parsed?
      && ReadDate(Get(body.value, "data_checkout"), parse).Parsed?
  {
    var g := Gates(body, parse);
    FirstFailureOfFour(g[0], g[1], g[2], g[3]);
    assert g == [g[0], g[1], g[2], g[3]];
  }

  /** A check-in or check-out text that does not parse is a 400, and nothing has been
      written to the audit trail yet. */
  lemma BadDateNoAudit(
    db: Db, caller: int, data: Dict, parse: string -> Option<int>,
    dbUser: string, audited: bool, proc: ProcReply)
    requires data != map[]
    requires Truthy(Get(data, "quarto_id")) && Truthy(Get(data, "data_checkin")) && Truthy(Get(data, "data_checkout"))
    requires Get(data, "data_checkin").Str? && Get(data, "data_checkout").Str?
    requires parse(Get(data, "data_checkin").s).None? || parse(Get(data, "data_checkout").s).None?
    ensures CreateReservation(db, caller, Some(data), parse, dbUser, audited, proc) == Outcome(400, db, None)
  {
  }

  /** A date sent as something other than text (a number, say) escapes the ValueError
      clause and answers 500, again before any audit write. */
  lemma NonTextDateIsServerError(
    db: Db, caller: int, data: Dict, parse: string -> Option<int>,
    dbUser: string, audited: bool, proc: ProcReply)
    requires data != map[]
    requires Truthy(Get(data, "quarto_id")) && Truthy(Get(data, "data_checkin")) && Truthy(Get(data, "data_checkout"))
    requires !Get(data, "data_checkin").Str?
    ensures CreateReservation(db, caller, Some(data), parse, dbUser, audited, proc) == Outcome(500, db, None)
  {
  }

  /** An unknown room answers 404 only after the audit entry has been attempted: with a
      working audit write the trail has grown by exactly that entry, and no procedure
      is called. */
  lemma UnknownRoomAudited(
    db: Db, caller: int, data: Dict, parse: string -> Option<int>, dbUser: string, proc: ProcReply, k: int)
    requires FirstFailure(Gates(Some(data), parse)).None?
    requires SqlInt(Get(data, "quarto_id")) == Some(k) && k !in db.rooms
    ensures
      var o := CreateReservation(db, caller, Some(data), parse, dbUser, true, proc);
      && o.status == 404
      && o.call.None?
      && o.db.audit == db.audit
           + [AuditEntry(dbUser, caller, INSERT_RESERVATION,
                         [Get(data, "quarto_id"), Get(data, "data_checkin"), Get(data, "data_checkout")])]
  {
    GatesPassIff(Some(data), parse);
  }

  /** A failed audit write never changes the answer or the procedure call; it only
      leaves the audit trail shorter. */
  lemma AuditFailureHarmless(
    db: Db, caller: int, body: Option<Dict>, parse: string -> Option<int>, dbUser: string, proc: ProcReply)
    ensures
      var ok := CreateReservation(db, caller, body, parse, dbUser, true, proc);
      var failed := CreateReservation(db, caller, body, parse, dbUser, false, proc);
      && ok.status == failed.status
      && ok.call == failed.call
      && failed.db == ok.db.(audit := db.audit)
  {
  }

  /** The procedure is called exactly when every gate passes, the room id reads as an
      integer and the room exists; it then receives the caller and the parsed dates. */
  lemma CalledIffGatesAndRoom(
    db: Db, caller: int, body: Option<Dict>, parse: string -> Option<int>,
    dbUser: string, audited: bool, proc: ProcReply)
    ensures
      var o := CreateReservation(db, caller, body, parse, dbUser, audited, proc);
      o.call.Some? <==>
        && FirstFailure(Gates(body, parse)).None?
        && SqlInt(Get(body.value, "quarto_id")).Some?
        && SqlInt(Get(body.value, "quarto_id")).value in db.rooms
    ensures
      var o := CreateReservation(db, caller, body, parse, dbUser, audited, proc);
      o.call.Some? ==>
        && ReadDate(Get(body.value, "data_checkin"), parse) == Parsed(o.call.value.checkin)
        && ReadDate(Get(body.value, "data_checkout"), parse) == Parsed(o.call.value.checkout)
  {
    GatesPassIff(body, parse);
  }
}

=== FILE: images.dfy ===
/** `upload_imagem` and `get_imagem` in app.py: only an admin or a receptionist may
    store a room's image; reading it back needs no role at all.
 */
module Images {
  import opened Values
  import opened Store

  /** The user types allowed to upload. */
  predicate MayUpload(role: Option<string>) {
    role == Some(ADMIN) || role == Some(RECEPTIONIST)
  }

  /** The handler: role gate (403), then file part, file name and room id (400 each),
      then the room lookup with the form text as id. A text the database cannot read as
      an integer raises inside the generic clause (500); an unknown room is a 404. No
      size or content-type check is made here. */
  function Upload(db: Db, caller: int, file: Option<FilePart>, roomId: Option<string>): (o: Outcome)
    ensures o.status in {200, 400, 403, 404, 500}
    ensures o.call.None?
    ensures o.status == 403 <==> !MayUpload(UserType(db, caller))
    ensures o.status == 200 <==>
      && MayUpload(UserType(db, caller))
      && file.Some? && file.value.filename != ""
      && roomId.Some? && roomId.value != ""
      && SqlInt(Str(roomId.value)).Some? && SqlInt(Str(roomId.value)).value in db.rooms
    ensures o.status != 200 ==> o.db == db
    ensures o.db.users == db.users && o.db.reservations == db.reservations
    ensures o.db.payments == db.payments && o.db.audit == db.audit
    ensures o.db.rooms.Keys == db.rooms.Keys
    ensures o.status == 200 ==>
      && file.Some? && roomId.Some?
      && SqlInt(Str(roomId.value)).Some?
      && var k := SqlInt(Str(roomId.value)).value;
         && k in db.rooms
         && o.db.rooms == db.rooms[k := Room(db.rooms[k].status, Some(file.value.bytes))]
  {
    if !MayUpload(UserType(db, caller)) then Outcome(403, db, None)
    else if file.None? then Outcome(400, db, None)
    else if file.value.filename == "" then Outcome(400, db, None)
    else if roomId.None? || roomId.value == "" then Outcome(400, db, None)
    else
      match SqlInt(Str(roomId.value))
      case None => Outcome(500, db, None)
      case Some(k) =>
        if k !in db.rooms then Outcome(404, db, None)
        else
          var room := db.rooms[k];
          Outcome(200, db.(rooms := db.rooms[k := room.(image := Some(file.value.bytes))]), None)
  }

  datatype Image = Image(status: int, bytes: Option<Bytes>)

  /** `get_imagem`: an unknown room, a NULL image and an empty image (falsy bytes) all
      answer 404. */
  function GetImage(db: Db, room: int): (im: Image)
    ensures im.status in {200, 404}
    ensures im.status == 200 <==> im.bytes.Some?
    ensures im.bytes.Some? ==> room in db.rooms && db.rooms[room].image == im.bytes && |im.bytes.value| > 0
  {
    if room !in db.rooms then Image(404, None)
    else match db.rooms[room].image
      case None => Image(404, None)
      case Some(b) => if b == [] then Image(404, None) else Image(200, Some(b))
  }

  /** Only an admin or a receptionist gets past the role gate; a client, an unknown
      caller or any other type is refused with 403 and nothing is stored. */
  lemma UploadRoleGate(db: Db, caller: int, file: Option<FilePart>, roomId: Option<string>)
    requires !MayUpload(UserType(db, caller))
    ensures Upload(db, caller, file, roomId) == Outcome(403, db, None)
  {
  }

  /** Round trip: after a successful upload, reading the room's image gives back the
      uploaded bytes, unless they were empty, which reads as no image (404). */
  lemma UploadThenGet(db: Db, caller: int, file: FilePart, roomId: string)
    requires Upload(db, caller, Some(file), Some(roomId)).status == 200
    ensures
      var db' := Upload(db, caller, Some(file), Some(roomId)).db;
      var im := GetImage(db', SqlInt(Str(roomId)).value);
      && (file.bytes != [] ==> im == Image(200, Some(file.bytes)))
      && (file.bytes == [] ==> im.status == 404)
  {
  }

  /** Uploading to one room leaves every other room's image as it was. */
  lemma UploadTouchesOneRoom(db: Db, caller: int, file: FilePart, roomId: string, other: int)
    requires Upload(db, caller, Some(file), Some(roomId)).status == 200
    requires SqlInt(Str(roomId)).value != other
    ensures GetImage(Upload(db, caller, Some(file), Some(roomId)).db, other) == GetImage(db, other)
  {
  }
}

=== FILE: payments.dfy ===
/** `processar_pagamento` in app.py: validate the fields by truthiness, check ownership
    for anyone but an admin, insert one Pagamento row and mark the reservation 'pago'.
 */
module Payments {
  import opened Values
  import opened Store

  /** Two rows that differ at most in their status. */
  predicate SameBooking(r: Reservation, r': Reservation) {
    r' == r.(status := r'.status)
  }

  /** `UPDATE Reserva SET disponivel = 'pago' WHERE id_reserva = id`. */
  function MarkPaid(rs: seq<Reservation>, id: int): (rs': seq<Reservation>)
    ensures |rs'| == |rs|
    ensures forall i :: 0 <= i < |rs| ==> SameBooking(rs[i], rs'[i])
    ensures forall i :: 0 <= i < |rs| && rs[i].id == id ==> rs'[i].status == Some(PAID)
    ensures forall i :: 0 <= i < |rs| && rs[i].id != id ==> rs'[i] == rs[i]
    decreases |rs|
  {
    if rs == [] then []
    else
      var head := if rs[0].id == id then rs[0].(status := Some(PAID)) else rs[0];
      [head] + MarkPaid(rs[1..], id)
  }

  /** The handler. `accepted` is whether the database accepts the Pagamento row (its
      column types and constraints are not part of the model); a rejected insert rolls
      back and answers 400. */
  function Pay(db: Db, caller: int, body: Option<Dict>, accepted: bool): (o: Outcome)
    ensures o.status in {201, 400, 404}
    ensures o.call.None?
    ensures o.status != 201 ==> o.db == db
    ensures o.db.users == db.users && o.db.rooms == db.rooms && o.db.audit == db.audit
    ensures o.status == 201 ==>
      && HasBody(body)
      && |o.db.payments| == |db.payments| + 1
      && o.db.payments[..|db.payments|] == db.payments
  {
    if !HasBody(body) then Outcome(400, db, None)
    else
      var data := body.value;
      var reservation, means, amount := Get(data, "reserva_id"), Get(data, "metodo_pagamento"), Get(data, "valor");
      if !(Truthy(reservation) && Truthy(means) && Truthy(amount)) then Outcome(400, db, None)
      else
        match SqlInt(reservation)
        case None => Outcome(400, db, None)
        case Some(id) =>
          if !IsAdmin(UserType(db, caller))
             && !exists i :: 0 <= i < |db.reservations| && db.reservations[i].id == id && db.reservations[i].client == caller
          then Outcome(404, db, None)
          else if !accepted then Outcome(400, db, None)
          else
            var db' := db.(payments := db.payments + [Payment(id, means, amount)],
                           reservations := MarkPaid(db.reservations, id));
            Outcome(201, db', None)
  }

  /** A missing, empty or falsy field (a zero amount, a zero id, an empty method) is
      rejected with 400 before anything is read or written. */
  lemma FalsyFieldRejected(db: Db, caller: int, data: Dict, accepted: bool, field: string)
    requires field in ["reserva_id", "metodo_pagamento", "valor"]
    requires !Truthy(Get(data, field))
    ensures Pay(db, caller, Some(data), accepted) == Outcome(400, db, None)
  {
  }

  /** A non-admin paying for a reservation it does not own gets 404: no payment is
      recorded and no status changes. */
  lemma ForeignPaymentRejected(db: Db, caller: int, data: Dict, accepted: bool, id: int)
    requires data != map[]
    requires Truthy(Get(data, "metodo_pagamento")) && Truthy(Get(data, "valor"))
    requires Truthy(Get(data, "reserva_id")) && SqlInt(Get(data, "reserva_id")) == Some(id)
    requires !IsAdmin(UserType(db, caller))
    requires forall i :: 0 <= i < |db.reservations| && db.reservations[i].id == id ==> db.reservations[i].client != caller
    ensures Pay(db, caller, Some(data), accepted) == Outcome(404, db, None)
  {
  }

  /** A successful payment appends exactly one payment for that reservation, sets every
      row with that id to 'pago' whatever its prior status (a cancelled one included),
      and leaves every other reservation as it was. */
  lemma PaymentEffect(db: Db, caller: int, data: Dict, accepted: bool)
    requires Pay(db, caller, Some(data), accepted).status == 201
    ensures SqlInt(Get(data, "reserva_id")).Some?
    ensures
      var id := SqlInt(Get(data, "reserva_id")).value;
      var db' := Pay(db, caller, Some(data), accepted).db;
      && db'.payments == db.payments + [Payment(id, Get(data, "metodo_pagamento"), Get(data, "valor"))]
      && |db'.reservations| == |db.reservations|
      && (forall i :: 0 <= i < |db.reservations| && db.reservations[i].id == id ==>
            db'.reservations[i] == db.reservations[i].(status := Some(PAID)))
      && (forall i :: 0 <= i < |db.reservations| && db.reservations[i].id != id ==>
            db'.reservations[i] == db.reservations[i])
  {
    var id := SqlInt(Get(data, "reserva_id")).value;
    var db' := Pay(db, caller, Some(data), accepted).db;
    assert db'.reservations == MarkPaid(db.reservations, id);
  }

  /** Who may pay: a payment succeeds exactly when the three fields are truthy, the id
      is one the database can read, the caller is an admin (any such id) or owns a
      reservation with that id, and the database accepts the insert. */
  lemma PaymentFollowsPolicy(db: Db, caller: int, data: Dict, accepted: bool)
    ensures Pay(db, caller, Some(data), accepted).status == 201 <==>
      && data != map[]
      && Truthy(Get(data, "reserva_id")) && Truthy(Get(data, "metodo_pagamento")) && Truthy(Get(data, "valor"))
      && SqlInt(Get(data, "reserva_id")).Some?
      && (|| IsAdmin(UserType(db, caller))
          || exists i :: 0 <= i < |db.reservations|
               && db.reservations[i].id == SqlInt(Get(data, "reserva_id")).value && db.reservations[i].client == caller)
      && accepted
  {
  }

  /** Payment keeps reservation ids unique: it only rewrites statuses. */
  lemma PaymentKeepsIdsUnique(db: Db, caller: int, body: Option<Dict>, accepted: bool)
    requires UniqueIds(db.reservations)
    ensures UniqueIds(Pay(db, caller, body, accepted).db.reservations)
  {
    var rs' := Pay(db, caller, body, accepted).db.reservations;
    assert |rs'| == |db.reservations|;
    assert forall i :: 0 <= i < |rs'| ==> rs'[i].id == db.reservations[i].id by {
      forall i | 0 <= i < |rs'| ensures rs'[i].id == db.reservations[i].id {
        assert SameBooking(db.reservations[i], rs'[i]) || rs'[i] == db.reservations[i];
      }
    }
  }
}

=== FILE: store.dfy ===
/** The database the app.py handlers read and write: users with their type, rooms with
    their status and image, reservations, payments and the audit trail. Dates are day
    numbers (the order of ISO `YYYY-MM-DD` text is the calendar order).
 */
module Store {
  import opened Values

  const ADMIN := "admin"
  const RECEPTIONIST := "rececionista"
  const FREE := "livre"
  const CANCELLED := "cancelado"
  const PAID := "pago"

  /** A QuartoHotel row: `status_quarto` and the `imagem` column (NULL is None). */
  datatype Room = Room(status: string, image: Option<Bytes>)

  /** A Reserva row; `status` is the `disponivel` column, which may be NULL. */
  datatype Reservation = Reservation(
    id: int,
    room: int,
    client: int,
    checkin: int,
    checkout: int,
    status: Option<string>)

  /** A Pagamento row as the payment handler inserts it. */
  datatype Payment = Payment(reservation: int, means: Value, amount: Value)

  /** An Auditoria row: database role, acting user, action code and the request fields
      its free-text detail is formatted from. */
  datatype AuditEntry = AuditEntry(dbUser: string, appUser: int, action: string, detail: seq<Value>)

  datatype Db = Db(
    users: map<int, string>,
    rooms: map<int, Room>,
    reservations: seq<Reservation>,
    payments: seq<Payment>,
    audit: seq<AuditEntry>)

  /** `get_user_type`: the caller's `tipo_utilizador`, None for an unknown caller. */
  function UserType(db: Db, user: int): Option<string> {
    if user in db.users then Some(db.users[user]) else None
  }

  predicate IsAdmin(role: Option<string>) {
    role == Some(ADMIN)
  }

  /** `if not user_type`: None and the empty string both fail. */
  predicate KnownRole(role: Option<string>) {
    role.Some? && role.value != ""
  }

  /** `id_reserva` is the table's primary key. */
  ghost predicate UniqueIds(rs: seq<Reservation>) {
    forall i, j :: 0 <= i < |rs| && 0 <= j < |rs| && rs[i].id == rs[j].id ==> i == j
  }

  /** A stored procedure a handler calls; what the procedure does to the database is
      its own business and is not part of the model. */
  datatype ProcCall =
    | CreateReservationCall(client: int, room: Value, checkin: int, checkout: int)
    | CancelReservationCall(id: int)

  /** How a called procedure (or a statement the handler issues) ended. */
  datatype ProcReply = Completed | Raised

  /** A handler's answer: the HTTP status, the database after the handler's own
      writes, and the procedure it called, if any. */
  datatype Outcome = Outcome(status: int, db: Db, call: Option<ProcCall>)
}

=== FILE: values.dfy ===
/** Python and JSON values as the request handlers see them: truthiness, `dict.get`,
    key presence, Python's `int()`/`float()` conversions, the way PostgreSQL reads a
    bound parameter compared with an integer id column, and the "first failing check
    decides" shape shared by the handlers' validation chains.
 */
module Values {

  datatype Option<+T> = None | Some(value: T)

  /** A JSON value as decoded from a request body. */
  datatype Value =
    | Null
    | Bool(b: bool)
    | Int(i: int)
    | Real(r: real)
    | Str(s: string)
    | Arr(items: seq<Value>)
    | Obj(fields: map<string, Value>)

  /** A decoded JSON object, or one result row of a RealDictCursor. */
  type Dict = map<string, Value>

  type Bytes = seq<bv8>

  /** An uploaded multipart file part: file name, declared content type and content. */
  datatype FilePart = FilePart(filename: string, contentType: Option<string>, bytes: Bytes)

  /** Python truthiness: None, False, 0, 0.0, "", [] and {} are false. */
  predicate Truthy(v: Value) {
    match v
    case Null => false
    case Bool(b) => b
    case Int(i) => i != 0
    case Real(r) => r != 0.0
    case Str(s) => |s| > 0
    case Arr(items) => |items| > 0
    case Obj(fields) => fields != map[]
  }

  /** `if not data`: both a missing body and an empty object are rejected. */
  predicate HasBody(body: Option<Dict>) {
    body.Some? && body.value != map[]
  }

  /** `data.get(key)`: a missing key reads as None. */
  function Get(d: Dict, key: string): Value {
    if key in d then d[key] else Null
  }

  /** `all(field in data for field in fields)`: presence only, never the value. */
  predicate HasKeys(d: Dict, fields: seq<string>) {
    forall i :: 0 <= i < |fields| ==> fields[i] in d
  }

  // ---------------------------------------------------------------------------
  // Decimal integer literals

  predicate IsDigit(c: char) {
    '0' <= c <= '9'
  }

  predicate AllDigits(s: string) {
    forall i :: 0 <= i < |s| ==> IsDigit(s[i])
  }

  function DigitValue(c: char): nat
    requires IsDigit(c)
  {
    (c - '0') as nat
  }

  function DigitChar(d: nat): (c: char)
    requires d < 10
    ensures IsDigit(c) && DigitValue(c) == d
  {
    ('0' as int + d) as char
  }

  /** The value of a run of decimal digits, most significant first (0 for no digits). */
  function DigitsValue(s: string): nat
    requires AllDigits(s)
  {
    if s == [] then 0
    else 10 * DigitsValue(s[..|s| - 1]) + DigitValue(s[|s| - 1])
  }

  function Unsigned(s: string): string {
    if |s| > 0 && (s[0] == '-' || s[0] == '+') then s[1..] else s
  }

  /** An optional sign followed by at least one decimal digit. */
  predicate IsIntLiteral(s: string) {
    |Unsigned(s)| > 0 && AllDigits(Unsigned(s))
  }

  function IntLiteralValue(s: string): int
    requires IsIntLiteral(s)
  {
    if s[0] == '-' then -(DigitsValue(Unsigned(s)) as int) else DigitsValue(Unsigned(s))
  }

  /** Decimal rendering of a natural number, as Python's `str()` gives it. */
  function ShowNat(n: nat): (s: string)
    ensures |s| > 0 && AllDigits(s)
    decreases n
  {
    if n < 10 then [DigitChar(n)] else ShowNat(n / 10) + [DigitChar(n % 10)]
  }

  function ShowInt(i: int): string {
    if i < 0 then "-" + ShowNat(-i) else ShowNat(i)
  }

  /** Reading back the digits `str(n)` prints gives n again. */
  lemma {:induction false} ShowNatRoundTrip(n: nat)
    ensures DigitsValue(ShowNat(n)) == n
    decreases n
  {
    if n >= 10 {
      var s := ShowNat(n);
      assert s[..|s| - 1] == ShowNat(n / 10);
      ShowNatRoundTrip(n / 10);
    }
  }

  /** Every integer's rendering is an integer literal that denotes it. */
  lemma ShowIntRoundTrip(i: int)
    ensures IsIntLiteral(ShowInt(i))
    ensures IntLiteralValue(ShowInt(i)) == i
  {
    if i < 0 {
      assert Unsigned(ShowInt(i)) == ShowNat(-i);
      ShowNatRoundTrip(-i);
    } else {
      assert Unsigned(ShowInt(i)) == ShowNat(i);
      ShowNatRoundTrip(i);
    }
  }

  /** A decimal literal with at most one point and at least one digit. */
  predicate IsDecimalLiteral(s: string) {
    var u := Unsigned(s);
    || IsIntLiteral(s)
    || exists k :: 0 <= k < |u| && u[k] == '.' && AllDigits(u[..k]) && AllDigits(u[k + 1..]) && |u| > 1
  }

  // ---------------------------------------------------------------------------
  // Python's int() and float()

  datatype PyError = ValueError | TypeError | OverflowError

  datatype Conversion = Converted(n: int) | Raises(error: PyError)

  /** Python's `int(r)` for a float: truncation toward zero. */
  function Truncate(r: real): int {
    if r >= 0.0 then r.Floor else -((-r).Floor)
  }

  /** The most digits `int()` reads from text (`sys.int_info.default_max_str_digits`);
      longer text raises ValueError. */
  const MAX_STR_DIGITS := 4300

  /** Python's `int(v)` applied to a decoded JSON value. */
  function PyInt(v: Value): (c: Conversion)
    ensures c.Raises? && c.error == TypeError <==> v.Null? || v.Arr? || v.Obj?
    ensures v.Str? ==> (c.Converted? <==> IsIntLiteral(v.s) && |Unsigned(v.s)| <= MAX_STR_DIGITS)
    ensures v.Int? ==> c == Converted(v.i)
  {
    match v
    case Null => Raises(TypeError)
    case Bool(b) => Converted(if b then 1 else 0)
    case Int(i) => Converted(i)
    case Real(r) => Converted(Truncate(r))
    case Str(s) =>
      if IsIntLiteral(s) && |Unsigned(s)| <= MAX_STR_DIGITS then Converted(IntLiteralValue(s)) else Raises(ValueError)
    case Arr(_) => Raises(TypeError)
    case Obj(_) => Raises(TypeError)
  }

  function Pow2(n: nat): (p: nat)
    ensures p > 0
  {
    if n == 0 then 1 else 2 * Pow2(n - 1)
  }

  lemma {:induction false} Pow2Grows(m: nat, n: nat)
    requires m < n
    ensures Pow2(m) < Pow2(n)
    decreases n
  {
    if m < n - 1 {
      Pow2Grows(m, n - 1);
    }
  }

  /** The least magnitude an int rounds to infinity at when converted to a double:
      halfway between the largest double, 2^1024 - 2^971, and 2^1024 (the tie rounds to
      the even neighbour, 2^1024). */
  function FloatOverflowBound(): (b: nat)
    ensures b > 0
  {
    Pow2Grows(970, 1024);
    Pow2(1024) - Pow2(970)
  }

  /** The exception Python's `float(v)` raises, if any. An int too large for a double
      raises OverflowError; text never overflows (it reads as infinity). */
  function FloatError(v: Value): (e: Option<PyError>)
    ensures e == Some(TypeError) <==> v.Null? || v.Arr? || v.Obj?
    ensures e == Some(OverflowError) <==> v.Int? && (v.i >= FloatOverflowBound() || -v.i >= FloatOverflowBound())
    ensures e == Some(ValueError) <==> v.Str? && !IsDecimalLiteral(v.s)
    ensures v.Real? || v.Bool? ==> e.None?
  {
    match v
    case Null => Some(TypeError)
    case Arr(_) => Some(TypeError)
    case Obj(_) => Some(TypeError)
    case Int(i) => if i >= FloatOverflowBound() || -i >= FloatOverflowBound() then Some(OverflowError) else None
    case Str(s) => if IsDecimalLiteral(s) then None else Some(ValueError)
    case _ => None
  }

  // ---------------------------------------------------------------------------
  // PostgreSQL's reading of a bound parameter compared with an integer id column

  /** The range of PostgreSQL's `integer` type, the type of the id columns. */
  const INT4_MIN := -0x8000_0000
  const INT4_MAX := 0x7FFF_FFFF

  /** `WHERE id_x = %s`: an int is compared as is (one outside the column's range simply
      matches no row), a string is read as an `integer` literal and must lie in that
      type's range, and anything else makes the statement fail (None). */
  function SqlInt(v: Value): (k: Option<int>)
    ensures v.Int? ==> k == Some(v.i)
    ensures v.Str? ==> (k.Some? <==> IsIntLiteral(v.s) && INT4_MIN <= IntLiteralValue(v.s) <= INT4_MAX)
    ensures v.Str? && k.Some? ==> k.value == IntLiteralValue(v.s)
    ensures !v.Int? && !v.Str? ==> k.None?
  {
    match v
    case Int(i) => Some(i)
    case Str(s) =>
      if IsIntLiteral(s) && INT4_MIN <= IntLiteralValue(s) <= INT4_MAX then Some(IntLiteralValue(s)) else None
    case _ => None
  }

  // ---------------------------------------------------------------------------
  // Ordered validation chains

  /** One validation step: whether it passed and the status it answers with if not. */
  datatype Check = Check(passed: bool, status: int)

  /** The status of the first failing check, or None when all pass. */
  function FirstFailure(checks: seq<Check>): Option<int> {
    if checks == [] then None
    else if !checks[0].passed then Some(checks[0].status)
    else FirstFailure(checks[1..])
  }

  /** Reference reading of FirstFailure: the answer is decided by the earliest failing
      check, and only when every check passes is there no answer. */
  lemma {:induction false} FirstFailureIsEarliest(checks: seq<Check>)
    ensures FirstFailure(checks).None? <==> forall i :: 0 <= i < |checks| ==> checks[i].passed
    ensures FirstFailure(checks).Some? ==>
      exists i :: 0 <= i < |checks| && !checks[i].passed && checks[i].status == FirstFailure(checks).value
        && forall j :: 0 <= j < i ==> checks[j].passed
  {
    if checks != [] && checks[0].passed {
      FirstFailureIsEarliest(checks[1..]);
      if FirstFailure(checks).Some? {
        var i :| 0 <= i < |checks[1..]| && !checks[1..][i].passed
          && checks[1..][i].status == FirstFailure(checks[1..]).value
          && forall j :: 0 <= j < i ==> checks[1..][j].passed;
        assert !checks[i + 1].passed;
        assert forall j :: 0 <= j < i + 1 ==> checks[j].passed by {
          forall j | 0 <= j < i + 1 ensures checks[j].passed {
            if j > 0 { assert checks[j] == checks[1..][j - 1]; }
          }
        }
      } else {
        forall i | 0 <= i < |checks| ensures checks[i].passed {
          if i > 0 { assert checks[i] == checks[1..][i - 1]; }
        }
      }
    }
  }
}
